=== FILE: README.md ===
# Socket bridge of the AMLL display connector, modelled in Dafny

This project models the bridge between a music player and a remote lyric
display: the `WebSocketWrapper` component (`src/music-context/ws-wrapper.tsx`)
and the message vocabulary it speaks (`src/music-context/ws-types.ts`).

- `ws_types.dfy` (`WsTypes`): the eighteen message kinds, their payload
  records, and `Message`, a body whose payload has the shape its tag demands.
- `clamp.dfy` (`Clamp`): `clampTime`, i.e. `min(MAX_SAFE_INTEGER, max(0, t | 0))`,
  with `t | 0` as ECMAScript ToInt32 on whole numbers (reduction modulo 2^32
  into the signed 32-bit range).
- `decimal.dfy` (`Decimal`): `String(id)` for the whole-number artist ids.
- `inbound.dfy` (`Inbound`): normalising a transport frame and decoding it
  (an unknown transport type stands for `ping`), and the inbound switch that
  yields at most one player call or a `pong` reply.
- `connection.dfy` (`Connection`): the connection effect as pure transitions
  on a `Bridge` record — `connect`, the debounced retry, the `open`, `error`,
  `close` and `message` handlers, teardown, a re-run of the effect — plus the
  best-effort `sendWSMessage`. Sockets are fresh natural-number ids; the
  reference check `nowWS !== webSocket` is id equality. The published `ws`
  ref is a separate field that teardown leaves alone.
- `connection_lemmas.dfy` (`ConnectionLemmas`): the invariant of every
  reachable bridge, the generation guard, cancellation and lifecycle scenarios.
- `publisher.dfy` (`Publisher`): the five publishing effects, including the
  lyric clamp over every line and word.

Points where the code's behaviour is easy to misread:

- `clampTime` goes through `t | 0`, which wraps modulo 2^32 rather than
  saturating, so 2^31 ms is published as 0 (`Clamp.ClampWrapsAtTwoPow31`) and
  5 - 2^32 as 5 (`Clamp.ClampWrapsNegative`). The 2^53 - 1 bound never
  binds, because the result always fits in 31 bits
  (`Clamp.ClampTimeBelowTwoPow31`). Inside the signed 32-bit range the clamp
  equals a saturating clamp (`Clamp.ClampAgreesWithSaturatingOnInt32`).
- Volume is sent under the tag `setVolume` (ws-wrapper.tsx:81), not
  `onVolumeChanged`.
- `parseBody` is foreign and may throw, so decoding returns an `Option`; on
  `None` the handler stops before the switch.
- `connect` only ever runs with no socket held: on the first run, and when
  the retry fires, since a retry is requested only together with forgetting
  the socket. Its `webSocket?.close()` therefore closes nothing in any run,
  and a construction throw leaves no socket held
  (`ConnectionLemmas.RetryConnectsFromScratch`).
- Player calls go through `musicContext?.`. With no music context every call
  is skipped, but a `ping` is still answered.

Inputs the code takes from outside become parameters: whether `new WebSocket(url)`
throws (`constructs`), the codec and text encoder (`Inbound.Codec`), whether
a music context exists (`playerPresent`), and the slice values.

## Model

| member | source | states |
|---|---|---|
| WsTypes.AllKinds | src/music-context/ws-types.ts:22-66 | the kind set has exactly 18 tags |
| WsTypes.EveryKindListed | src/music-context/ws-types.ts:22-66 | the kind set is closed: every tag is one of the 18 |
| WsTypes.NoPayloadKinds | src/music-context/ws-types.ts:22-66 | exactly eight kinds carry no payload, and they are exactly those whose shape is absent |
| WsTypes.MakeMessage | src/music-context/ws-types.ts:68-73 | a tag and payload pair into a message exactly when the payload has the tag's shape, and then keep both |
| WsTypes.MakeMessageOfParts | src/music-context/ws-types.ts:68-73 | taking any message apart and pairing the parts again gives the same message back |
| WsTypes.NoPayloadKindHasAbsentValue | src/music-context/ws-types.ts:22-66 | a message of a payload-less kind has the absent payload, not an empty record |
| WsTypes.SharedShapes | src/music-context/ws-types.ts:36-65 | two different kinds share a payload record iff both are payload-less or they are the volume, progress or byte-data pair |
| Clamp.ToInt32 | src/music-context/ws-wrapper.tsx:88-89 | `t \| 0` lies in the signed 32-bit range, is congruent to t modulo 2^32, and is t itself when t is already in range |
| Clamp.ToInt32Unique | src/music-context/ws-wrapper.tsx:88-89 | `t \| 0` is the only value in the signed 32-bit range congruent to t modulo 2^32 |
| Clamp.ClampTime | src/music-context/ws-wrapper.tsx:88-89 | every clamped time lies in [0, 2^53 - 1], and times in [0, 2^31) are unchanged |
| Clamp.ClampTimePeriodic | src/music-context/ws-wrapper.tsx:88-89 | adding a multiple of 2^32 to a time does not change the clamped time |
| Clamp.ClampTimeBelowTwoPow31 | src/music-context/ws-wrapper.tsx:88-89 | the clamped time is below 2^31, so the 2^53 - 1 bound never binds |
| Clamp.ClampTimeFixedPoints | src/music-context/ws-wrapper.tsx:88-89 | a time is unchanged by the clamp iff it lies in [0, 2^31) |
| Clamp.ClampTimeIdempotent | src/music-context/ws-wrapper.tsx:88-89 | clamping twice is clamping once |
| Clamp.ClampAgreesWithSaturatingOnInt32 | src/music-context/ws-wrapper.tsx:88-89 | within the signed 32-bit range the clamp equals min(2^53 - 1, max(0, t)) |
| Clamp.ClampWrapsAtTwoPow31 | src/music-context/ws-wrapper.tsx:88-89 | 2^31 is published as 0, where a saturating clamp would keep it |
| Clamp.ClampWrapsNegative | src/music-context/ws-wrapper.tsx:88-89 | 5 - 2^32 is published as 5, where a saturating clamp gives 0 |
| Decimal.IntToString | src/music-context/ws-wrapper.tsx:66-69 | `String(id)` is non-empty, all digits with no leading zero, after a leading '-' when the id is negative |
| Decimal.NatToStringValue | src/music-context/ws-wrapper.tsx:66-69 | the digits of a natural number denote that number |
| Decimal.IntToStringRoundTrip | src/music-context/ws-wrapper.tsx:66-69 | reading back `String(id)` gives the id |
| Decimal.IntToStringInjective | src/music-context/ws-wrapper.tsx:66-69 | distinct artist ids get distinct strings |
| Inbound.DecodeFrame | src/music-context/ws-wrapper.tsx:169-181 | array-buffer and blob frames are parsed as bytes, text frames after UTF-8 encoding, and any other frame is `ping` |
| Inbound.Dispatch | src/music-context/ws-wrapper.tsx:182-203 | `ping` gets a bare `pong`; the six control kinds make exactly their own player call when a player exists; everything else does nothing |
| Inbound.DispatchCarriesPayload | src/music-context/ws-wrapper.tsx:182-203 | seek and set-volume pass the received progress and volume to the player unchanged |
| Inbound.FramesNormalisedToBytes | src/music-context/ws-wrapper.tsx:173-178 | text frames decode as their UTF-8 bytes and blobs as their contents, through the one byte decoder |
| Inbound.UnknownFrameGetsPong | src/music-context/ws-wrapper.tsx:169-188 | a frame of unknown transport type is answered with `pong` |
| Inbound.OutboundKindsIgnored | src/music-context/ws-wrapper.tsx:182-203 | the eleven kinds with no inbound meaning cause no action |
| Connection.Send | src/music-context/ws-wrapper.tsx:39-58 | send never fails: it appends the message to the published socket if there is one and otherwise changes nothing |
| Connection.Connect | src/music-context/ws-wrapper.tsx:144-164 | does nothing after cancellation; otherwise closes the held socket and no other, then shows Connecting with a fresh, unclosed socket installed, or on a construction throw shows Error, keeps the held socket and requests a retry |
| Connection.OnRetry | src/music-context/ws-wrapper.tsx:244 | a pending retry is consumed and runs exactly one `connect` (with its full contract: only the held socket closed, `ws`, player calls and send log kept, the construction-error status on a throw); without a pending retry nothing happens |
| ConnectionLemmas.RetryOutcome | src/music-context/ws-wrapper.tsx:144-164 | after a fired retry the request stays pending only if the attempt threw; a successful attempt shows Connecting on a fresh socket, a throw shows the construction error, and after cancellation the request is merely consumed |
| Connection.OnOpen | src/music-context/ws-wrapper.tsx:232-242 | an open of the current socket shows Active, closes the published socket and publishes the current one; any other open changes nothing |
| Connection.OnLost | src/music-context/ws-wrapper.tsx:206-230 | an error or close of the current socket clears both sockets, shows Error and requests a retry; any other changes nothing |
| Connection.OnMessage | src/music-context/ws-wrapper.tsx:167-204 | a message never changes the connection fields; from a stale socket or after cancellation it changes nothing at all |
| Connection.OnTeardown | src/music-context/ws-wrapper.tsx:248-257 | teardown closes and forgets the held socket, cancels and shows Disabled, leaving `ws` alone; a disabled run has no cleanup |
| Connection.Step | src/music-context/ws-wrapper.tsx:165-257 | each event reaches its own handler: on the current socket `open` shows Active and publishes it, `error` and `close` show their own Error texts, forget both sockets and request a retry; a message is dispatched under the environment of that moment; a fired retry, teardown and a re-run (teardown, then a fresh run) go to their handlers |
| Connection.Start | src/music-context/ws-wrapper.tsx:132-246 | a disabled run shows Disabled and creates no socket; an enabled run connects at once, closing nothing, and keeps `ws`, player calls and the send log |
| ConnectionLemmas.ProgressMeansConnecting | src/music-context/ws-wrapper.tsx:132-257 | in every reachable bridge the progress flag is set exactly while connecting |
| ConnectionLemmas.StartEstablishesInv | src/music-context/ws-wrapper.tsx:132-164 | every run of the effect starts in the bridge invariant |
| ConnectionLemmas.StepPreservesInv | src/music-context/ws-wrapper.tsx:132-258 | every event keeps the invariant: Disabled iff not running, Connecting holds an unclosed socket, Active has `ws == webSocket`, Error has a retry pending |
| ConnectionLemmas.RunPreservesInv | src/music-context/ws-wrapper.tsx:132-258 | every sequence of events keeps the invariant, whatever music context each event sees |
| ConnectionLemmas.ReachableStatesKeepInv | src/music-context/ws-wrapper.tsx:132-258 | every bridge reachable from the first run of the effect, through any events, satisfies the invariant |
| ConnectionLemmas.RetryAttemptsOnce | src/music-context/ws-wrapper.tsx:244 | a pending retry yields one attempt, and firing again after it built its socket does nothing |
| ConnectionLemmas.StaleEventChangesNothing | src/music-context/ws-wrapper.tsx:165-242 | an open, error, close or message from a non-current socket, or after cancellation, changes nothing |
| ConnectionLemmas.StepCounterGrows | src/music-context/ws-wrapper.tsx:152-165 | the held socket only ever becomes none or a freshly created one, and ids are never reused |
| ConnectionLemmas.SupersededStaysSuperseded | src/music-context/ws-wrapper.tsx:152-165 | a socket that is no longer current never becomes current again, whatever events follow |
| ConnectionLemmas.SupersededSocketIsInert | src/music-context/ws-wrapper.tsx:165-242 | a late event from a superseded socket is ignored after any further sequence of events |
| ConnectionLemmas.CanceledRunIsFrozen | src/music-context/ws-wrapper.tsx:145-257 | after teardown only a new run changes the bridge, apart from a pending retry being consumed |
| ConnectionLemmas.TeardownWhenDisabledIsNoOp | src/music-context/ws-wrapper.tsx:248-257 | deactivating a bridge that shows Disabled changes nothing |
| ConnectionLemmas.TeardownDisables | src/music-context/ws-wrapper.tsx:248-257 | deactivation always ends in Disabled without progress and holding no socket, and is idempotent |
| ConnectionLemmas.PongGoesBackOnActiveSocket | src/music-context/ws-wrapper.tsx:186-188 | while Active, the `pong` reply to a ping goes out on the socket the ping came in on |
| ConnectionLemmas.IgnoredMessageChangesNothing | src/music-context/ws-wrapper.tsx:167-203 | a current message that fails to decode, has no inbound meaning, or needs an absent player changes nothing: no call, nothing sent |
| ConnectionLemmas.PingAnsweredThroughSend | src/music-context/ws-wrapper.tsx:186-188 | a ping on the current socket is answered by sending a bare `pong` through the best-effort send, and nothing else changes |
| ConnectionLemmas.ControlMessageCallsPlayer | src/music-context/ws-wrapper.tsx:182-203 | a control message on the current socket appends exactly its one player call, sends nothing and changes nothing else |
| ConnectionLemmas.EnableThenOpen | src/music-context/ws-wrapper.tsx:144-242 | enabling shows Connecting with a fresh socket, and its open shows Active with that socket published and the previous one closed |
| ConnectionLemmas.DropThenRetry | src/music-context/ws-wrapper.tsx:219-246 | an Active connection that closes shows Error holding no socket; the retry then shows Connecting with a new socket |
| ConnectionLemmas.AddressChangeWhileActive | src/music-context/ws-wrapper.tsx:248-258 | a re-run while Active closes the old socket and starts a fresh attempt, keeping the published socket until then |
| ConnectionLemmas.RetryConnectsFromScratch | src/music-context/ws-wrapper.tsx:152-164 | whenever a retry is pending no socket is held, so the retried `connect` closes nothing and a construction throw leaves no socket held |
| ConnectionLemmas.PendingRetryIgnoresSocketEvents | src/music-context/ws-wrapper.tsx:165-242 | while a retry is pending every socket event is ignored, so no second retry request can arrive |
| Publisher.ConvertArtists | src/music-context/ws-wrapper.tsx:66-69 | artists keep their order and names, with ids in decimal |
| Publisher.MusicInfoMessage | src/music-context/ws-wrapper.tsx:60-72 | track info carries the id, name and duration, empty album id and name, and exactly the converted artists: in order, names kept, ids as `String(id)` |
| Publisher.MusicInfoArtistsReadBack | src/music-context/ws-wrapper.tsx:66-69 | the published artists keep the player's count, order and names, and each id reads back to the player's id |
| Publisher.ClampWords | src/music-context/ws-wrapper.tsx:95-99 | words keep count, order and text, with both times clamped |
| Publisher.ClampLine | src/music-context/ws-wrapper.tsx:91-100 | a line keeps every non-time field and word count, with line and word times clamped |
| Publisher.ClampLines | src/music-context/ws-wrapper.tsx:91-100 | lines keep count and order, each clamped |
| Publisher.LyricMessage | src/music-context/ws-wrapper.tsx:86-103 | a lyric message exists iff the lyrics have data, and every time in it lies in [0, 2^53 - 1] |
| Publisher.ClampLinesKeepsInRangeLyrics | src/music-context/ws-wrapper.tsx:86-103 | lyrics whose times are all in [0, 2^31) are published exactly as they are |
| Publisher.ClampLinesIdempotent | src/music-context/ws-wrapper.tsx:86-103 | clamping published lyrics again changes nothing |
| Publisher.SliceMessage | src/music-context/ws-wrapper.tsx:60-109 | each slice produces only its own kind of message carrying the new value: track info as built by the track effect, the progress, the volume under `setVolume`, the lyric message, the cover URL; only unloaded lyrics produce none |
| Publisher.Publish | src/music-context/ws-wrapper.tsx:60-109 | a slice change appends exactly that slice's message to the published socket, or nothing when there is none, and changes nothing else |
| Publisher.VolumeChangeSendsSetVolume | src/music-context/ws-wrapper.tsx:80-84 | a volume change sends exactly one `setVolume` carrying the new level |
| Publisher.PublishKeepsInv | src/music-context/ws-wrapper.tsx:39-109 | publishing, interleaved anywhere with connection events, keeps the bridge invariant |
| Publisher.PublishKeepsConnection | src/music-context/ws-wrapper.tsx:39-109 | publishing never changes status, held or published socket, cancellation or retry |

## Left out

- `toBody` and `parseBody` are a foreign codec whose source is not part of this model. The log records the message handed to `send`, not its bytes, and no byte-level round trip is claimed. `TextEncoder` is a parameter as well.
- The debounce helper (`src/utils/debounce`) is not part of this model. `enqueueConnect` sets a pending-retry flag, and `RetryFires` consumes the flag and runs `connect`. A second request while one is pending never arises (`ConnectionLemmas.PendingRetryIgnoresSocketEvents`), so the debounce's coalescing is never exercised. The 5000 ms window and the timer restart are not modelled.
- The `await` on a blob frame: the guard is checked before the blob is read, and the model treats the whole handler as one step. A socket that becomes stale during the read is not modelled.
- React and jotai scheduling: a change of `enabled` or `url` is the `Rerun` event, i.e. teardown followed by a fresh run that keeps the published socket. A change of the music context only changes what later messages see, so `Run` pairs each event with the environment of its moment. Publishing a slice is not a connection event: `Publisher.PublishKeepsConnection` and `Publisher.PublishKeepsInv` show it leaves every connection field and the invariant alone, so it may be interleaved anywhere. The URL itself is not modelled; only whether construction throws.
- Browser socket semantics: the model does not say when the browser fires events or whether a send on a closed socket is delivered. Events may arrive in any order, for any socket.
- The initial value of the status atom (`ws-states`) is not part of this model; every run overwrites it at once.
- Logging through `log` and `warn`, and the commented-out audio-data block (lines 111-130), which is dead code.
- Floating point: lyric times are whole numbers, so the truncation of `t | 0` is not modelled, only its 32-bit wrap. Progress, volume and duration are `real` values copied unchanged.
- Decimal.IntToString: whole-number ids only. The exponent form that `String` uses from 10^21 upward is not modelled.
- The configuration screens (`src/components/config/index.tsx`) are view routing with no logic.

=== FILE: clamp.dfy ===
/**
 The time clamp applied to every lyric time before it is published:
 `min(MAX_SAFE_INTEGER, max(0, t | 0))`, where `t | 0` is the ECMAScript
 ToInt32 conversion. On whole numbers ToInt32 reduces modulo 2^32 into the
 signed 32-bit range, so a large time wraps rather than saturating.
 */
module Clamp {

  const TwoPow31: int := 0x8000_0000
  const TwoPow32: int := 0x1_0000_0000

  /** `Number.MAX_SAFE_INTEGER`, 2^53 - 1. */
  const MaxSafeInteger: int := 0x1F_FFFF_FFFF_FFFF

  predicate IsInt32(x: int)
  {
    -TwoPow31 <= x < TwoPow31
  }

  /** ECMAScript ToInt32 on a whole number. */
  function ToInt32(t: int): (r: int)
    ensures IsInt32(r)
    ensures (r - t) % TwoPow32 == 0
    ensures IsInt32(t) ==> r == t
  {
    var m := t % TwoPow32;
    if m >= TwoPow31 then m - TwoPow32 else m
  }

  /** The clamp of the lyric publisher. */
  function ClampTime(t: int): (r: int)
    ensures 0 <= r <= MaxSafeInteger
    ensures 0 <= t < TwoPow31 ==> r == t
  {
    Min(MaxSafeInteger, Max(0, ToInt32(t)))
  }

  function Min(a: int, b: int): int { if a <= b then a else b }

  function Max(a: int, b: int): int { if a >= b then a else b }

  /** ToInt32 is the only value in the signed range congruent to its input. */
  lemma ToInt32Unique(t: int, x: int)
    requires IsInt32(x) && (x - t) % TwoPow32 == 0
    ensures x == ToInt32(t)
  {
  }

  /** Adding whole multiples of 2^32 to a time does not change what is published. */
  lemma ClampTimePeriodic(t: int, k: int)
    ensures ClampTime(t + k * TwoPow32) == ClampTime(t)
  {
  }

  /** The 2^53 - 1 bound never binds: the clamp's result fits in 31 bits. */
  lemma ClampTimeBelowTwoPow31(t: int)
    ensures 0 <= ClampTime(t) < TwoPow31
    ensures ClampTime(t) == Max(0, ToInt32(t))
  {
  }

  /** A time is published unchanged exactly when it already lies in [0, 2^31). */
  lemma ClampTimeFixedPoints(t: int)
    ensures ClampTime(t) == t <==> 0 <= t < TwoPow31
  {
  }

  /** Clamping twice is clamping once. */
  lemma ClampTimeIdempotent(t: int)
    ensures ClampTime(ClampTime(t)) == ClampTime(t)
  {
  }

  /**
   A saturating clamp `min(2^53 - 1, max(0, t))`, the behaviour the
   modular conversion departs from for times outside the signed 32-bit range.
   */
  function SaturatingClamp(t: int): (r: int)
    ensures 0 <= r <= MaxSafeInteger
    ensures r == t <==> 0 <= t <= MaxSafeInteger
  {
    Min(MaxSafeInteger, Max(0, t))
  }

  /** Inside the signed 32-bit range the two clamps agree. */
  lemma ClampAgreesWithSaturatingOnInt32(t: int)
    requires IsInt32(t)
    ensures ClampTime(t) == SaturatingClamp(t)
  {
  }

  /** 2^31 ms wraps to a negative number and is published as 0, not as itself. */
  lemma ClampWrapsAtTwoPow31()
    ensures ClampTime(TwoPow31) == 0
    ensures SaturatingClamp(TwoPow31) == TwoPow31
  {
  }

  /** A negative time far below the 32-bit range can wrap to a positive one. */
  lemma ClampWrapsNegative()
    ensures ClampTime(5 - TwoPow32) == 5
    ensures SaturatingClamp(5 - TwoPow32) == 0
  {
  }
}

=== FILE: connection.dfy ===
/**
 The connection effect of the bridge and its best-effort send, as a state
 machine over one record. Sockets are fresh natural-number ids; a callback
 belongs to the socket it was attached to and acts only while that socket is
 still the effect's current `webSocket` and the effect has not been canceled.
 The published socket `ws`, the socket world and the log of player calls are
 shared by successive runs of the effect and survive its teardown.
 */
module Connection {

  import opened Wrappers
  import opened WsTypes
  import opened Inbound

  type SocketId = nat

  datatype Color = Disabled | Connecting | Active | Error

  /** The status record shown to the user; `progress` marks a transient state. */
  datatype Status = Status(color: Color, progress: bool, text: string)

  const DisabledStatus := Status(Disabled, false, "\U{672A}\U{5F00}\U{542F}")
  const ConnectingStatus := Status(Connecting, true, "\U{6B63}\U{5728}\U{8FDE}\U{63A5}")
  const ActiveStatus := Status(Active, false, "\U{5DF2}\U{8FDE}\U{63A5}")
  /** Construction of the socket threw. */
  const ConstructErrorStatus := Status(Error, false, "\U{8FDE}\U{63A5}\U{65F6}\U{51FA}\U{9519}\U{FF0C}\U{4E94}\U{79D2}\U{540E}\U{91CD}\U{8BD5}")
  /** The socket reported `error`. */
  const SocketErrorStatus := Status(Error, false, "\U{8FDE}\U{63A5}\U{5931}\U{8D25}\U{FF0C}\U{4E94}\U{79D2}\U{540E}\U{91CD}\U{8BD5}")
  /** The socket reported `close`. */
  const ClosedStatus := Status(Error, false, "\U{8FDE}\U{63A5}\U{5DF2}\U{5173}\U{95ED}\U{FF0C}\U{4E94}\U{79D2}\U{540E}\U{91CD}\U{8BD5}")

  /** One message handed to a socket's `send`. */
  datatype Sent = Sent(socket: SocketId, msg: Message)

  /**
   The sockets created so far: ids below `next` have been handed out,
   `closed` are those the bridge has called `close()` on, and `sent` is every
   message handed to some socket, oldest first.
   */
  datatype Sockets = Sockets(next: SocketId, closed: set<SocketId>, sent: seq<Sent>)

  /**
   The bridge. `enabled`, `canceled`, `webSocket` and `retry` belong to the
   current run of the connection effect; `retry` marks a pending debounced
   reconnect. `ws` is the shared published socket, `status` the shared status
   atom, and `calls` the player calls made so far.
   */
  datatype Bridge = Bridge(
    enabled: bool,
    canceled: bool,
    webSocket: Option<SocketId>,
    ws: Option<SocketId>,
    status: Status,
    retry: bool,
    sockets: Sockets,
    calls: seq<PlayerCall>)

  /** The events the bridge reacts to. */
  datatype Event =
    | RetryFires(constructs: bool)     // the debounced reconnect timer fires
    | Opened(socket: SocketId)
    | Failed(socket: SocketId)         // an `error` event
    | Closed(socket: SocketId)         // a `close` event
    | Received(socket: SocketId, frame: Frame)
    | Teardown
    | Rerun(enable: bool, constructs: bool)   // the effect runs again

  /** The environment an event is handled in: the codec and whether a player is present. */
  datatype Env = Env(codec: Codec, playerPresent: bool)

  /** Callbacks attached to `id` still act. */
  predicate IsCurrent(s: Bridge, id: SocketId)
  {
    s.enabled && !s.canceled && s.webSocket == Some(id)
  }

  /** Calls `close()` on a socket, if there is one. */
  function CloseSocket(w: Sockets, id: Option<SocketId>): (r: Sockets)
    ensures r.next == w.next && r.sent == w.sent
    ensures id.Some? ==> r.closed == w.closed + {id.value}
    ensures id.None? ==> r == w
  {
    if id.Some? then w.(closed := w.closed + {id.value}) else w
  }

  /**
   Best-effort send: the message goes to the published socket if there is
   one and is dropped otherwise; nothing else changes and nothing fails.
   */
  function Send(s: Bridge, m: Message): (r: Bridge)
    ensures s.ws.Some? ==> r.sockets.sent == s.sockets.sent + [Sent(s.ws.value, m)]
    ensures s.ws.None? ==> r.sockets.sent == s.sockets.sent
    ensures r == s.(sockets := s.sockets.(sent := r.sockets.sent))
  {
    match s.ws
    case Some(id) => s.(sockets := s.sockets.(sent := s.sockets.sent + [Sent(id, m)]))
    case None => s
  }

  /**
   `connect`: after cancellation it does nothing; otherwise it shows
   Connecting, closes the socket held so far and installs a fresh one. When
   construction throws the status becomes Error and a retry is requested; the
   assignment never happened, so `webSocket` still holds the old socket.
   */
  function Connect(s: Bridge, constructs: bool): (r: Bridge)
    ensures !s.enabled || s.canceled ==> r == s
    ensures s.enabled && !s.canceled ==>
      && r.ws == s.ws && r.calls == s.calls && r.enabled && !r.canceled
      && r.sockets.sent == s.sockets.sent
      && r.sockets.closed == CloseSocket(s.sockets, s.webSocket).closed
      && (constructs ==>
            && r.status == ConnectingStatus && r.retry == s.retry
            && r.webSocket == Some(s.sockets.next) && r.sockets.next == s.sockets.next + 1
            && (s.sockets.next !in s.sockets.closed && s.webSocket != Some(s.sockets.next) ==>
                  s.sockets.next !in r.sockets.closed))
      && (!constructs ==>
            && r.status == ConstructErrorStatus && r.retry
            && r.webSocket == s.webSocket && r.sockets.next == s.sockets.next)
  {
    if !s.enabled || s.canceled then s
    else
      var s1 := s.(status := ConnectingStatus, sockets := CloseSocket(s.sockets, s.webSocket));
      if !constructs then
        s1.(status := ConstructErrorStatus, retry := true)
      else
        s1.(webSocket := Some(s1.sockets.next),
            sockets := s1.sockets.(next := s1.sockets.next + 1))
  }

  /**
   The debounced reconnect fires: a pending request is consumed and `connect`
   runs once. A request stays pending afterwards only if that attempt itself
   failed to construct its socket.
   */
  function OnRetry(s: Bridge, constructs: bool): (r: Bridge)
    ensures !s.retry ==> r == s
    ensures s.retry ==> r == Connect(s.(retry := false), constructs)
  {
    if s.retry then Connect(s.(retry := false), constructs) else s
  }

  /** `open`: show Active, close the previously published socket, publish this one. */
  function OnOpen(s: Bridge, id: SocketId): (r: Bridge)
    ensures !IsCurrent(s, id) ==> r == s
    ensures IsCurrent(s, id) ==>
      && r.status == ActiveStatus && r.ws == Some(id) && r.webSocket == Some(id)
      && r.retry == s.retry && r.canceled == s.canceled && r.calls == s.calls
      && r.sockets == CloseSocket(s.sockets, s.ws)
  {
    if !IsCurrent(s, id) then s
    else s.(status := ActiveStatus, sockets := CloseSocket(s.sockets, s.ws), ws := s.webSocket)
  }

  /** `error` and `close`: forget both sockets, show Error, request a retry. */
  function OnLost(s: Bridge, id: SocketId, status: Status): (r: Bridge)
    ensures !IsCurrent(s, id) ==> r == s
    ensures IsCurrent(s, id) ==>
      && r.webSocket.None? && r.ws.None? && r.status == status && r.retry
      && r.sockets == s.sockets && r.calls == s.calls && r.canceled == s.canceled
  {
    if !IsCurrent(s, id) then s
    else s.(webSocket := None, ws := None, status := status, retry := true)
  }

  /** `message`: decode the frame and carry out what the switch says. */
  function OnMessage(s: Bridge, id: SocketId, f: Frame, env: Env): (r: Bridge)
    ensures !IsCurrent(s, id) ==> r == s
    ensures r.status == s.status && r.webSocket == s.webSocket && r.ws == s.ws
    ensures r.retry == s.retry && r.canceled == s.canceled
    ensures r.sockets.next == s.sockets.next && r.sockets.closed == s.sockets.closed
  {
    if !IsCurrent(s, id) then s
    else
      match DecodeFrame(f, env.codec)
      case None => s
      case Some(m) =>
        match Dispatch(m, env.playerPresent)
        case NoAction => s
        case Reply(reply) => Send(s, reply)
        case Invoke(c) => s.(calls := s.calls + [c])
  }

  /**
   The effect's cleanup: close and forget the socket, cancel, show Disabled.
   A disabled run registered no cleanup. The published `ws` is left alone.
   */
  function OnTeardown(s: Bridge): (r: Bridge)
    ensures !s.enabled ==> r == s
    ensures s.enabled ==>
      && r.canceled && r.webSocket.None? && r.status == DisabledStatus
      && r.ws == s.ws && r.retry == s.retry && r.calls == s.calls
      && r.sockets == CloseSocket(s.sockets, s.webSocket)
  {
    if !s.enabled then s
    else
      s.(sockets := CloseSocket(s.sockets, s.webSocket), webSocket := None,
         canceled := true, status := DisabledStatus)
  }

  /**
   A run of the effect on top of the shared state of `prev`. Disabled: show
   Disabled and create nothing. Enabled: fresh locals and an immediate `connect`.
   */
  function Start(prev: Bridge, enable: bool, constructs: bool): (r: Bridge)
    ensures r.ws == prev.ws && r.calls == prev.calls && r.sockets.sent == prev.sockets.sent
    ensures r.enabled == enable && !r.canceled
    ensures !enable ==> r.status == DisabledStatus && r.webSocket.None? && !r.retry
                        && r.sockets == prev.sockets
    ensures enable && constructs ==>
      r.status == ConnectingStatus && r.webSocket == Some(prev.sockets.next) && !r.retry
    ensures enable && !constructs ==>
      r.status == ConstructErrorStatus && r.webSocket.None? && r.retry
      && r.sockets.next == prev.sockets.next
    ensures enable ==> r.sockets.closed == prev.sockets.closed
    ensures enable && constructs ==> r.sockets.next == prev.sockets.next + 1
  {
    var run := Bridge(enable, false, None, prev.ws, prev.status, false, prev.sockets, prev.calls);
    if !enable then run.(status := DisabledStatus) else Connect(run, constructs)
  }

  /**
   Routes an event to its handler. On the current socket an `open` shows
   Active and publishes it; an `error` and a `close` each show their own
   Error text, forget both sockets and request a retry; a message is
   decoded and dispatched under the environment of the moment. A re-run of
   the effect is its teardown followed by a fresh run.
   */
  function Step(s: Bridge, e: Event, env: Env): (r: Bridge)
    ensures e.RetryFires? ==> r == OnRetry(s, e.constructs)
    ensures e.Opened? && IsCurrent(s, e.socket) ==>
      && r.status == ActiveStatus && r.ws == Some(e.socket) && r.webSocket == Some(e.socket)
      && r.sockets == CloseSocket(s.sockets, s.ws) && r.calls == s.calls
    ensures e.Failed? && IsCurrent(s, e.socket) ==>
      && r.status == SocketErrorStatus && r.retry && r.webSocket.None? && r.ws.None?
      && r.sockets == s.sockets && r.calls == s.calls
    ensures e.Closed? && IsCurrent(s, e.socket) ==>
      && r.status == ClosedStatus && r.retry && r.webSocket.None? && r.ws.None?
      && r.sockets == s.sockets && r.calls == s.calls
    ensures e.Received? ==> r == OnMessage(s, e.socket, e.frame, env)
    ensures e.Teardown? ==> r == OnTeardown(s)
    ensures e.Rerun? ==> r == Start(OnTeardown(s), e.enable, e.constructs)
  {
    match e
    case RetryFires(c) => OnRetry(s, c)
    case Opened(id) => OnOpen(s, id)
    case Failed(id) => OnLost(s, id, SocketErrorStatus)
    case Closed(id) => OnLost(s, id, ClosedStatus)
    case Received(id, f) => OnMessage(s, id, f, env)
    case Teardown => OnTeardown(s)
    case Rerun(enable, c) => Start(OnTeardown(s), enable, c)
  }

  /**
   Runs a sequence of events, each handled under the environment current
   when it arrives, so the music context may come and go between events.
   */
  function Run(s: Bridge, es: seq<(Event, Env)>): Bridge
    decreases |es|
  {
    if |es| == 0 then s else Run(Step(s, es[0].0, es[0].1), es[1..])
  }

  /** The world before the effect first runs: no sockets, nothing sent, nothing published. */
  function Boot(status: Status): (r: Bridge)
    ensures r.ws.None? && r.webSocket.None? && r.sockets.next == 0 && r.sockets.closed == {}
  {
    Bridge(false, false, None, None, status, false, Sockets(0, {}, []), [])
  }
}

=== FILE: connection_lemmas.dfy ===
/**
 Properties of the connection state machine: the invariant every reachable
 bridge keeps, the generation guard (a superseded socket can never act
 again), cancellation, and the lifecycle scenarios.
 */
module ConnectionLemmas {

  import opened Wrappers
  import opened WsTypes
  import opened Inbound
  import opened Connection

  /** Every socket id the bridge knows of has been handed out. */
  predicate SocketsOk(s: Bridge)
  {
    && (s.webSocket.Some? ==> s.webSocket.value < s.sockets.next)
    && (s.ws.Some? ==> s.ws.value < s.sockets.next)
    && (forall id :: id in s.sockets.closed ==> id < s.sockets.next)
  }

  /** The statuses the bridge ever shows. */
  predicate KnownStatus(st: Status)
  {
    st in {DisabledStatus, ConnectingStatus, ActiveStatus,
           ConstructErrorStatus, SocketErrorStatus, ClosedStatus}
  }

  /**
   The invariant of a running bridge: the status is one of the six records;
   it is Disabled exactly when the run is disabled or canceled, and then no
   socket is held; Connecting means a fresh, unclosed socket is held; Active
   means the held socket is the published one; Error always has a retry
   pending; and while a retry is pending no socket is held.
   */
  predicate Inv(s: Bridge)
  {
    && SocketsOk(s)
    && KnownStatus(s.status)
    && (s.status.color == Disabled <==> !s.enabled || s.canceled)
    && (s.status.color == Disabled ==> s.webSocket.None?)
    && (!s.enabled ==> !s.retry && !s.canceled)
    && (s.status.color == Active ==> s.webSocket.Some? && s.ws == s.webSocket)
    && (s.status.color == Connecting ==>
          s.webSocket.Some? && s.webSocket.value !in s.sockets.closed)
    && (s.status.color == Error ==> s.retry)
    && (s.retry ==> s.webSocket.None?)
  }

  /** `progress` is set exactly while connecting. */
  lemma ProgressMeansConnecting(s: Bridge)
    requires Inv(s)
    ensures s.status.progress <==> s.status.color == Connecting
  {
  }

  /** Every run of the effect starts in the invariant. */
  lemma StartEstablishesInv(prev: Bridge, enable: bool, constructs: bool)
    requires SocketsOk(prev)
    ensures Inv(Start(prev, enable, constructs))
  {
  }

  /** Every event keeps the invariant. */
  lemma StepPreservesInv(s: Bridge, e: Event, env: Env)
    requires Inv(s)
    ensures Inv(Step(s, e, env))
  {
  }

  /** Every sequence of events keeps the invariant. */
  lemma {:induction false} RunPreservesInv(s: Bridge, es: seq<(Event, Env)>)
    requires Inv(s)
    ensures Inv(Run(s, es))
    decreases |es|
  {
    if |es| > 0 {
      StepPreservesInv(s, es[0].0, es[0].1);
      RunPreservesInv(Step(s, es[0].0, es[0].1), es[1..]);
    }
  }

  /**
   Every bridge reachable from the first run of the effect, through any
   sequence of events, satisfies the invariant.
   */
  lemma ReachableStatesKeepInv(st: Status, enable: bool, constructs: bool, es: seq<(Event, Env)>)
    ensures Inv(Run(Start(Boot(st), enable, constructs), es))
  {
    StartEstablishesInv(Boot(st), enable, constructs);
    RunPreservesInv(Start(Boot(st), enable, constructs), es);
  }

  /**
   What a fired retry leaves behind: a request stays pending only when the
   attempt threw; a successful attempt shows Connecting with a fresh socket;
   after cancellation the request is merely consumed.
   */
  lemma RetryOutcome(s: Bridge, constructs: bool)
    requires s.retry
    ensures OnRetry(s, constructs).retry <==> s.enabled && !s.canceled && !constructs
    ensures s.enabled && !s.canceled && constructs ==>
      OnRetry(s, constructs).status == ConnectingStatus
      && OnRetry(s, constructs).webSocket == Some(s.sockets.next)
    ensures s.enabled && !s.canceled && !constructs ==>
      OnRetry(s, constructs).status == ConstructErrorStatus
    ensures !s.enabled || s.canceled ==> OnRetry(s, constructs) == s.(retry := false)
  {
  }

  /**
   Retry requests coalesce into one pending flag: firing it yields one
   connection attempt, and firing again after that attempt built its socket
   does nothing.
   */
  lemma RetryAttemptsOnce(s: Bridge, c: bool)
    requires Inv(s) && s.retry && s.enabled && !s.canceled
    ensures OnRetry(OnRetry(s, true), c) == OnRetry(s, true)
  {
  }

  /** The socket an event comes from, if it is a socket event. */
  function EventSocket(e: Event): Option<SocketId>
  {
    match e
    case Opened(id) => Some(id)
    case Failed(id) => Some(id)
    case Closed(id) => Some(id)
    case Received(id, _) => Some(id)
    case _ => None
  }

  /**
   The generation guard: an open, error, close or message event from a
   socket that is not the current one, or after cancellation, changes
   nothing at all.
   */
  lemma StaleEventChangesNothing(s: Bridge, e: Event, env: Env)
    requires EventSocket(e).Some? && !IsCurrent(s, EventSocket(e).value)
    ensures Step(s, e, env) == s
  {
  }

  /** Handed-out ids never come back: the id counter only grows. */
  lemma StepCounterGrows(s: Bridge, e: Event, env: Env)
    ensures s.sockets.next <= Step(s, e, env).sockets.next
    ensures var r := Step(s, e, env);
      r.webSocket == s.webSocket || r.webSocket.None? || r.webSocket == Some(s.sockets.next)
  {
  }

  /**
   Once a handed-out socket is no longer the current one it never becomes
   current again, whatever events follow and in whatever order.
   */
  lemma {:induction false} SupersededStaysSuperseded(s: Bridge, es: seq<(Event, Env)>, id: SocketId)
    requires id < s.sockets.next && s.webSocket != Some(id)
    ensures id < Run(s, es).sockets.next
    ensures Run(s, es).webSocket != Some(id)
    decreases |es|
  {
    if |es| > 0 {
      StepCounterGrows(s, es[0].0, es[0].1);
      SupersededStaysSuperseded(Step(s, es[0].0, es[0].1), es[1..], id);
    }
  }

  /**
   So a late event from a superseded socket, arriving after any sequence of
   further events, is ignored.
   */
  lemma SupersededSocketIsInert(s: Bridge, es: seq<(Event, Env)>, e: Event, env: Env)
    requires EventSocket(e).Some?
    requires EventSocket(e).value < s.sockets.next && s.webSocket != EventSocket(e)
    ensures var t := Run(s, es); Step(t, e, env) == t
  {
    SupersededStaysSuperseded(s, es, EventSocket(e).value);
    StaleEventChangesNothing(Run(s, es), e, env);
  }

  /**
   A canceled run is frozen: apart from consuming a pending retry, nothing
   but a new run of the effect changes it.
   */
  lemma CanceledRunIsFrozen(s: Bridge, e: Event, env: Env)
    requires Inv(s) && s.canceled && !e.Rerun?
    ensures Step(s, e, env).(retry := s.retry) == s
    ensures !e.RetryFires? ==> Step(s, e, env) == s
  {
  }

  /** Deactivating a bridge that already shows Disabled changes nothing. */
  lemma TeardownWhenDisabledIsNoOp(s: Bridge)
    requires Inv(s) && s.status.color == Disabled
    ensures OnTeardown(s) == s
  {
  }

  /** Deactivating a live bridge always ends in Disabled without progress, and twice is once. */
  lemma TeardownDisables(s: Bridge)
    requires Inv(s)
    ensures OnTeardown(s).status == DisabledStatus && !OnTeardown(s).status.progress
    ensures OnTeardown(s).webSocket.None?
    ensures OnTeardown(OnTeardown(s)) == OnTeardown(s)
  {
  }

  /** In the Active state the pong reply to a ping goes back on the socket it came in on. */
  lemma PongGoesBackOnActiveSocket(s: Bridge, id: SocketId, f: Frame, env: Env)
    requires Inv(s) && s.status.color == Active && IsCurrent(s, id)
    requires DecodeFrame(f, env.codec) == Some(Bare(Ping))
    ensures OnMessage(s, id, f, env).sockets.sent == s.sockets.sent + [Sent(id, Bare(Pong))]
    ensures OnMessage(s, id, f, env).calls == s.calls
  {
  }

  /**
   A message on the current socket that fails to decode, or whose kind has
   no inbound meaning (or needs a player that is absent), changes nothing:
   no player call, nothing sent.
   */
  lemma IgnoredMessageChangesNothing(s: Bridge, id: SocketId, f: Frame, env: Env)
    requires IsCurrent(s, id)
    requires DecodeFrame(f, env.codec).None?
      || Dispatch(DecodeFrame(f, env.codec).value, env.playerPresent).NoAction?
    ensures OnMessage(s, id, f, env) == s
  {
  }

  /**
   A ping on the current socket is answered with a bare `pong` through the
   best-effort send, whatever the connection status, and calls nothing.
   */
  lemma PingAnsweredThroughSend(s: Bridge, id: SocketId, f: Frame, env: Env, m: Message)
    requires IsCurrent(s, id) && DecodeFrame(f, env.codec) == Some(m) && m.kind == Ping
    ensures OnMessage(s, id, f, env) == Send(s, Bare(Pong))
    ensures OnMessage(s, id, f, env).calls == s.calls
  {
  }

  /** A control message on the current socket makes exactly its one player call. */
  lemma ControlMessageCallsPlayer(s: Bridge, id: SocketId, f: Frame, env: Env, m: Message)
    requires IsCurrent(s, id) && env.playerPresent
    requires DecodeFrame(f, env.codec) == Some(m) && ExpectedCall(m).Some?
    ensures OnMessage(s, id, f, env) == s.(calls := s.calls + [ExpectedCall(m).value])
  {
  }

  /** Enabling: Connecting with a fresh socket, then Active once that socket opens. */
  lemma EnableThenOpen(prev: Bridge)
    requires SocketsOk(prev)
    ensures var r := Start(prev, true, true);
      && r.status == ConnectingStatus && r.status.progress
      && r.webSocket == Some(prev.sockets.next)
    ensures var r := OnOpen(Start(prev, true, true), prev.sockets.next);
      && r.status == ActiveStatus && !r.status.progress
      && r.ws == Some(prev.sockets.next) && r.ws == r.webSocket
      && (prev.ws.Some? ==> prev.ws.value in r.sockets.closed)
  {
  }

  /**
   An Active connection drops: the bridge shows Error and holds no socket;
   when the retry fires it shows Connecting with a new socket.
   */
  lemma DropThenRetry(s: Bridge, id: SocketId)
    requires Inv(s) && s.status.color == Active && s.webSocket == Some(id)
    ensures var e := OnLost(s, id, ClosedStatus);
      && e.status == ClosedStatus && !e.status.progress && e.retry
      && e.webSocket.None? && e.ws.None?
    ensures var r := OnRetry(OnLost(s, id, ClosedStatus), true);
      && r.status == ConnectingStatus && r.webSocket == Some(s.sockets.next)
      && s.sockets.next != id && !r.retry
  {
  }

  /**
   The address changes while Active: the old socket is closed and a fresh
   attempt begins; the published socket stays until the new one opens.
   */
  lemma AddressChangeWhileActive(s: Bridge, id: SocketId, env: Env)
    requires Inv(s) && s.status.color == Active && s.webSocket == Some(id)
    ensures var r := Step(s, Rerun(true, true), env);
      && id in r.sockets.closed
      && r.status == ConnectingStatus
      && r.webSocket == Some(s.sockets.next) && r.webSocket != Some(id)
      && r.ws == s.ws
  {
  }

  /**
   `connect` only ever runs with no socket held: on the first run, and when a
   pending retry fires, since a retry is requested only together with
   forgetting the socket. So its `webSocket?.close()` closes nothing, and a
   construction throw leaves no socket held.
   */
  lemma RetryConnectsFromScratch(s: Bridge, constructs: bool)
    requires Inv(s) && s.retry
    ensures s.webSocket.None?
    ensures OnRetry(s, constructs).sockets.closed == s.sockets.closed
    ensures !constructs ==> OnRetry(s, constructs).webSocket.None?
  {
  }

  /**
   While a retry is pending no socket event has any effect, so no second
   retry request can arrive before the pending one fires.
   */
  lemma PendingRetryIgnoresSocketEvents(s: Bridge, e: Event, env: Env)
    requires Inv(s) && s.retry && EventSocket(e).Some?
    ensures Step(s, e, env) == s
  {
  }
}

=== FILE: decimal.dfy ===
/**
 `String(n)` for a whole number: its decimal digits, with a leading '-' when
 negative. Artist ids are converted this way before they are published.
 */
module Decimal {

  predicate IsDigit(c: char)
  {
    '0' <= c <= '9'
  }

  predicate AllDigits(s: string)
  {
    forall i :: 0 <= i < |s| ==> IsDigit(s[i])
  }

  function DigitChar(d: nat): (c: char)
    requires d < 10
    ensures IsDigit(c)
  {
    ['0', '1', '2', '3', '4', '5', '6', '7', '8', '9'][d]
  }

  function DigitValue(c: char): (d: nat)
    requires IsDigit(c)
    ensures d < 10 && DigitChar(d) == c
  {
    (c as int - '0' as int) as nat
  }

  /** The decimal digits of `n`, most significant first, without leading zeros. */
  function NatToString(n: nat): (s: string)
    ensures 0 < |s| && AllDigits(s)
    ensures |s| > 1 ==> s[0] != '0'
    decreases n
  {
    if n < 10 then [DigitChar(n)] else NatToString(n / 10) + [DigitChar(n % 10)]
  }

  /** The number a digit string denotes. */
  function DigitsValue(s: string): nat
    requires AllDigits(s)
  {
    if |s| == 0 then 0 else 10 * DigitsValue(s[..|s| - 1]) + DigitValue(s[|s| - 1])
  }

  /** `String(n)` for a whole number. */
  function IntToString(n: int): (s: string)
    ensures 0 < |s|
    ensures n >= 0 ==> AllDigits(s) && (|s| > 1 ==> s[0] != '0')
    ensures n < 0 ==> s[0] == '-' && 1 < |s| && AllDigits(s[1..]) && s[1] != '0'
  {
    if n < 0 then "-" + NatToString(-n) else NatToString(n)
  }

  /** Reads back a string produced by `IntToString`. */
  function ParseInt(s: string): int
  {
    if 0 < |s| && s[0] == '-' && AllDigits(s[1..]) then -(DigitsValue(s[1..]) as int)
    else if AllDigits(s) then DigitsValue(s)
    else 0
  }

  lemma {:induction false} NatToStringValue(n: nat)
    ensures DigitsValue(NatToString(n)) == n
    decreases n
  {
    var s := NatToString(n);
    if n >= 10 {
      NatToStringValue(n / 10);
      assert s[..|s| - 1] == NatToString(n / 10);
    }
  }

  /** Reading back the decimal form of a number gives the number. */
  lemma IntToStringRoundTrip(n: int)
    ensures ParseInt(IntToString(n)) == n
  {
    if n < 0 {
      NatToStringValue(-n);
      assert IntToString(n)[1..] == NatToString(-n);
    } else {
      NatToStringValue(n);
      assert IntToString(n)[0] != '-';
    }
  }

  /** Distinct ids have distinct decimal forms. */
  lemma IntToStringInjective(a: int, b: int)
    requires IntToString(a) == IntToString(b)
    ensures a == b
  {
    IntToStringRoundTrip(a);
    IntToStringRoundTrip(b);
  }
}

=== FILE: inbound.dfy ===
/**
 The inbound half of the bridge: normalising a transport frame to bytes and
 decoding it, then the switch that turns a decoded message into at most one
 call on the player or a `pong` reply.
 */
module Inbound {

  import opened Wrappers
  import opened WsTypes

  /** What a socket's `message` event carries. */
  datatype Frame =
    | BinaryFrame(buffer: Bytes)   // an ArrayBuffer
    | TextFrame(text: string)      // a string
    | BlobFrame(blob: Bytes)       // a Blob, already read out
    | OtherFrame                   // any other transport type

  /**
   The foreign codec and text encoder. `parse` answers `None` when it throws,
   in which case the handler stops before the switch.
   */
  datatype Codec = Codec(parse: Bytes -> Option<Message>, utf8: string -> Bytes)

  /** The operations of the player the bridge may call. */
  datatype PlayerCall =
    | SeekToPosition(progress: real)
    | PausePlayer
    | ResumePlayer
    | ForwardPlayer
    | RewindPlayer
    | SetPlayerVolume(volume: real)

  /** The outcome of one inbound message. */
  datatype Outcome = NoAction | Reply(msg: Message) | Invoke(call: PlayerCall)

  /** Decodes a frame; an unrecognised transport type stands for `ping`. */
  function DecodeFrame(f: Frame, codec: Codec): (r: Option<Message>)
    ensures f.OtherFrame? ==> r == Some(Bare(Ping))
    ensures f.TextFrame? ==> r == codec.parse(codec.utf8(f.text))
    ensures f.BinaryFrame? ==> r == codec.parse(f.buffer)
    ensures f.BlobFrame? ==> r == codec.parse(f.blob)
  {
    match f
    case BinaryFrame(b) => codec.parse(b)
    case TextFrame(t) => codec.parse(codec.utf8(t))
    case BlobFrame(b) => codec.parse(b)
    case OtherFrame => Some(Bare(Ping))
  }

  /** The seven kinds that mean something when they arrive. */
  function InboundKinds(): (r: set<Kind>)
    ensures |r| == 7
  {
    { SeekPlayProgress, Ping, Pause, Resume, ForwardSong, BackwardSong, SetVolume }
  }

  /** The player call an inbound control kind stands for, read off the message. */
  function ExpectedCall(m: Message): Option<PlayerCall>
  {
    if m.kind == SeekPlayProgress then Some(SeekToPosition(m.value.progress))
    else if m.kind == Pause then Some(PausePlayer)
    else if m.kind == Resume then Some(ResumePlayer)
    else if m.kind == ForwardSong then Some(ForwardPlayer)
    else if m.kind == BackwardSong then Some(RewindPlayer)
    else if m.kind == SetVolume then Some(SetPlayerVolume(m.value.volume))
    else None
  }

  /**
   The inbound switch, total over the kind set: a `ping` is answered with a
   bare `pong`, each control kind makes exactly its own call, and every other
   kind does nothing. `playerPresent` is false when there is no music
   context, in which case every player call is skipped; the `pong` reply
   does not depend on the player.
   */
  function Dispatch(m: Message, playerPresent: bool): (r: Outcome)
    ensures r.Reply? <==> m.kind == Ping
    ensures r.Reply? ==> r.msg == Bare(Pong)
    ensures r.Invoke? <==> playerPresent && m.kind in InboundKinds() - {Ping}
    ensures r.Invoke? ==> Some(r.call) == ExpectedCall(m)
    ensures r.NoAction? <==> m.kind !in InboundKinds() || (m.kind != Ping && !playerPresent)
  {
    match m.kind
    case Ping => Reply(Bare(Pong))
    case SeekPlayProgress =>
      if playerPresent then Invoke(SeekToPosition(m.value.progress)) else NoAction
    case Pause => if playerPresent then Invoke(PausePlayer) else NoAction
    case Resume => if playerPresent then Invoke(ResumePlayer) else NoAction
    case ForwardSong => if playerPresent then Invoke(ForwardPlayer) else NoAction
    case BackwardSong => if playerPresent then Invoke(RewindPlayer) else NoAction
    case SetVolume =>
      if playerPresent then Invoke(SetPlayerVolume(m.value.volume)) else NoAction
    case _ => NoAction
  }

  /** Seeking carries the requested position through unchanged, and so does volume. */
  lemma DispatchCarriesPayload(m: Message)
    ensures m.kind == SeekPlayProgress ==>
      Dispatch(m, true) == Invoke(SeekToPosition(m.value.progress))
    ensures m.kind == SetVolume ==>
      Dispatch(m, true) == Invoke(SetPlayerVolume(m.value.volume))
  {
  }

  /**
   Every transport type is normalised to bytes before the one decoder runs:
   a text frame decodes as its UTF-8 bytes would, a blob as its contents would.
   */
  lemma FramesNormalisedToBytes(t: string, b: Bytes, codec: Codec)
    ensures DecodeFrame(TextFrame(t), codec) == DecodeFrame(BinaryFrame(codec.utf8(t)), codec)
    ensures DecodeFrame(BlobFrame(b), codec) == DecodeFrame(BinaryFrame(b), codec)
  {
  }

  /** A frame of unknown transport type is answered with `pong`. */
  lemma UnknownFrameGetsPong(codec: Codec, playerPresent: bool)
    ensures DecodeFrame(OtherFrame, codec).Some?
    ensures Dispatch(DecodeFrame(OtherFrame, codec).value, playerPresent) == Reply(Bare(Pong))
  {
  }

  /** Outbound-only kinds arriving inbound are ignored. */
  lemma OutboundKindsIgnored(m: Message, playerPresent: bool)
    requires m.kind in {Pong, SetMusicInfo, SetMusicAlbumCoverImageUri,
                        SetMusicAlbumCoverImageData, OnPlayProgress, OnVolumeChanged,
                        OnPaused, OnResumed, OnAudioData, SetLyric, SetLyricFromTtml}
    ensures Dispatch(m, playerPresent) == NoAction
  {
  }
}

=== FILE: publisher.dfy ===
/**
 The outbound half of the bridge: one publishing effect per watched slice of
 player state, each building its own message and handing it to the
 best-effort send.
 */
module Publisher {

  import opened Wrappers
  import opened WsTypes
  import opened Clamp
  import opened Decimal
  import opened Connection
  import ConnectionLemmas

  /** An artist as the player knows it: a numeric id. */
  datatype PlayerArtist = PlayerArtist(id: int, name: string)

  /** The loadable lyric timeline; only `HasData` is published. */
  datatype LyricsState = Loading | HasData(lines: seq<LyricLine>) | HasError

  /** A change to one watched slice of player state. */
  datatype Slice =
    | TrackChanged(musicId: string, musicName: string, artists: seq<PlayerArtist>, duration: real)
    | ProgressChanged(progress: real)
    | VolumeChanged(volume: real)
    | LyricsChanged(lyrics: LyricsState)
    | CoverChanged(url: string)

  /** An artist of the track-info payload: name kept, id in decimal. */
  predicate ArtistConverted(a: PlayerArtist, b: Artist)
  {
    b.name == a.name && b.id == IntToString(a.id)
  }

  function ConvertArtists(artists: seq<PlayerArtist>): (r: seq<Artist>)
    ensures |r| == |artists|
    ensures forall i :: 0 <= i < |r| ==> ArtistConverted(artists[i], r[i])
  {
    seq(|artists|, i requires 0 <= i < |artists| => Artist(IntToString(artists[i].id), artists[i].name))
  }

  /** Track info: album identity is always empty; artists keep order, ids become strings. */
  function MusicInfoMessage(musicId: string, musicName: string,
                            artists: seq<PlayerArtist>, duration: real): (m: Message)
    ensures m.kind == SetMusicInfo && m.value.MusicInfoValue?
    ensures m.value.info.musicId == musicId && m.value.info.musicName == musicName
    ensures m.value.info.albumId == "" && m.value.info.albumName == ""
    ensures m.value.info.duration == duration
    ensures m.value.info.artists == ConvertArtists(artists)
  {
    Body(SetMusicInfo, MusicInfoValue(MusicInfo(musicId, musicName, "", "", ConvertArtists(artists), duration)))
  }

  /** The published artists keep count, order and names, and their ids read back to the player's. */
  lemma MusicInfoArtistsReadBack(musicId: string, musicName: string,
                                 artists: seq<PlayerArtist>, duration: real)
    ensures var a := MusicInfoMessage(musicId, musicName, artists, duration).value.info.artists;
      && |a| == |artists|
      && forall i :: 0 <= i < |artists| ==>
           a[i].name == artists[i].name && ParseInt(a[i].id) == artists[i].id
  {
    var a := MusicInfoMessage(musicId, musicName, artists, duration).value.info.artists;
    forall i | 0 <= i < |artists| ensures ParseInt(a[i].id) == artists[i].id {
      IntToStringRoundTrip(artists[i].id);
    }
  }

  /** A published word: text kept, both times clamped. */
  predicate WordClamped(a: LyricWord, b: LyricWord)
  {
    && b.word == a.word
    && b.startTime == ClampTime(a.startTime)
    && b.endTime == ClampTime(a.endTime)
  }

  /** A published line: every non-time field kept, every line and word time clamped. */
  predicate LineClamped(a: LyricLine, b: LyricLine)
  {
    && b.startTime == ClampTime(a.startTime)
    && b.endTime == ClampTime(a.endTime)
    && b.isBG == a.isBG && b.isDuet == a.isDuet
    && b.translatedLyric == a.translatedLyric && b.romanLyric == a.romanLyric
    && |b.words| == |a.words|
    && forall j :: 0 <= j < |a.words| ==> WordClamped(a.words[j], b.words[j])
  }

  function ClampWord(w: LyricWord): LyricWord
  {
    w.(startTime := ClampTime(w.startTime), endTime := ClampTime(w.endTime))
  }

  function ClampWords(ws: seq<LyricWord>): (r: seq<LyricWord>)
    ensures |r| == |ws|
    ensures forall j :: 0 <= j < |ws| ==> WordClamped(ws[j], r[j])
  {
    if |ws| == 0 then [] else [ClampWord(ws[0])] + ClampWords(ws[1..])
  }

  function ClampLine(l: LyricLine): (r: LyricLine)
    ensures LineClamped(l, r)
  {
    l.(startTime := ClampTime(l.startTime), endTime := ClampTime(l.endTime),
       words := ClampWords(l.words))
  }

  /** The lyric payload: same lines in the same order, each clamped. */
  function ClampLines(ls: seq<LyricLine>): (r: seq<LyricLine>)
    ensures |r| == |ls|
    ensures forall i :: 0 <= i < |ls| ==> LineClamped(ls[i], r[i])
  {
    if |ls| == 0 then [] else [ClampLine(ls[0])] + ClampLines(ls[1..])
  }

  /** A time that survives the clamp unchanged. */
  predicate KeptTime(t: int)
  {
    0 <= t < TwoPow31
  }

  predicate LineTimesKept(l: LyricLine)
  {
    && KeptTime(l.startTime) && KeptTime(l.endTime)
    && forall j :: 0 <= j < |l.words| ==>
         KeptTime(l.words[j].startTime) && KeptTime(l.words[j].endTime)
  }

  /** Every time of a line lies in [0, 2^53 - 1]. */
  predicate LineTimesSafe(l: LyricLine)
  {
    && 0 <= l.startTime <= MaxSafeInteger && 0 <= l.endTime <= MaxSafeInteger
    && forall j :: 0 <= j < |l.words| ==>
         0 <= l.words[j].startTime <= MaxSafeInteger && 0 <= l.words[j].endTime <= MaxSafeInteger
  }

  /** The lyric message, sent only once the timeline has data. */
  function LyricMessage(lyrics: LyricsState): (r: Option<Message>)
    ensures r.Some? <==> lyrics.HasData?
    ensures r.Some? ==>
      && r.value.kind == SetLyric && r.value.value.LyricValue?
      && |r.value.value.lines| == |lyrics.lines|
      && forall i :: 0 <= i < |lyrics.lines| ==>
           LineClamped(lyrics.lines[i], r.value.value.lines[i])
           && LineTimesSafe(r.value.value.lines[i])
  {
    match lyrics
    case HasData(lines) => Some(Body(SetLyric, LyricValue(ClampLines(lines))))
    case _ => None
  }

  /** The kind each slice is published under. Volume goes out as `setVolume`. */
  function SliceKind(slice: Slice): Kind
  {
    match slice
    case TrackChanged(_, _, _, _) => SetMusicInfo
    case ProgressChanged(_) => OnPlayProgress
    case VolumeChanged(_) => SetVolume
    case LyricsChanged(_) => SetLyric
    case CoverChanged(_) => SetMusicAlbumCoverImageUri
  }

  /** The message one slice produces, if any. */
  function SliceMessage(slice: Slice): (r: Option<Message>)
    ensures r.Some? ==> r.value.kind == SliceKind(slice)
    ensures r.None? <==> slice.LyricsChanged? && !slice.lyrics.HasData?
    ensures slice.TrackChanged? ==>
      r == Some(MusicInfoMessage(slice.musicId, slice.musicName, slice.artists, slice.duration))
    ensures slice.ProgressChanged? ==> r.Some? && r.value.value == ProgressValue(slice.progress)
    ensures slice.VolumeChanged? ==> r.Some? && r.value.value == VolumeValue(slice.volume)
    ensures slice.LyricsChanged? ==> r == LyricMessage(slice.lyrics)
    ensures slice.CoverChanged? ==> r.Some? && r.value.value == ImageUriValue(slice.url)
  {
    match slice
    case TrackChanged(id, name, artists, duration) =>
      Some(MusicInfoMessage(id, name, artists, duration))
    case ProgressChanged(p) => Some(Body(OnPlayProgress, ProgressValue(p)))
    case VolumeChanged(v) => Some(Body(SetVolume, VolumeValue(v)))
    case LyricsChanged(lyrics) => LyricMessage(lyrics)
    case CoverChanged(url) => Some(Body(SetMusicAlbumCoverImageUri, ImageUriValue(url)))
  }

  /**
   A slice changed: its one message is sent through the best-effort send,
   whatever the connection status, and nothing but the send log changes.
   */
  function Publish(s: Bridge, slice: Slice): (r: Bridge)
    ensures r == s.(sockets := s.sockets.(sent := r.sockets.sent))
    ensures SliceMessage(slice).None? || s.ws.None? ==> r == s
    ensures SliceMessage(slice).Some? && s.ws.Some? ==>
      r.sockets.sent == s.sockets.sent + [Sent(s.ws.value, SliceMessage(slice).value)]
  {
    match SliceMessage(slice)
    case Some(m) => Send(s, m)
    case None => s
  }

  /** Lyrics already within [0, 2^31) are published exactly as they are. */
  lemma {:induction false} ClampLinesKeepsInRangeLyrics(ls: seq<LyricLine>)
    requires forall i :: 0 <= i < |ls| ==> LineTimesKept(ls[i])
    ensures ClampLines(ls) == ls
  {
    var r := ClampLines(ls);
    forall i | 0 <= i < |ls| ensures r[i] == ls[i] {
      var a, b := ls[i], r[i];
      assert b.words == a.words by {
        forall j | 0 <= j < |a.words| ensures b.words[j] == a.words[j] {
          assert WordClamped(a.words[j], b.words[j]);
        }
      }
    }
  }

  /** Publishing the already-published lyrics again sends the same payload. */
  lemma ClampLinesIdempotent(ls: seq<LyricLine>)
    ensures ClampLines(ClampLines(ls)) == ClampLines(ls)
  {
    var r := ClampLines(ls);
    forall i | 0 <= i < |r| ensures LineTimesKept(r[i]) {
      assert LineClamped(ls[i], r[i]);
      ClampTimeBelowTwoPow31(ls[i].startTime);
      ClampTimeBelowTwoPow31(ls[i].endTime);
      forall j | 0 <= j < |r[i].words|
        ensures KeptTime(r[i].words[j].startTime) && KeptTime(r[i].words[j].endTime)
      {
        ClampTimeBelowTwoPow31(ls[i].words[j].startTime);
        ClampTimeBelowTwoPow31(ls[i].words[j].endTime);
      }
    }
    ClampLinesKeepsInRangeLyrics(r);
  }

  /** A volume change while connected sends exactly one `setVolume` with the new level. */
  lemma VolumeChangeSendsSetVolume(s: Bridge, v: real)
    requires s.ws.Some?
    ensures Publish(s, VolumeChanged(v)).sockets.sent
      == s.sockets.sent + [Sent(s.ws.value, Body(SetVolume, VolumeValue(v)))]
  {
  }

  /**
   Publishing may interleave with connection events anywhere: it keeps the
   bridge invariant, so every reachability result holds with publishing mixed in.
   */
  lemma PublishKeepsInv(s: Bridge, slice: Slice)
    requires ConnectionLemmas.Inv(s)
    ensures ConnectionLemmas.Inv(Publish(s, slice))
  {
  }

  /** Publishing never disturbs the connection: status, sockets held and retry are untouched. */
  lemma PublishKeepsConnection(s: Bridge, slice: Slice)
    ensures var r := Publish(s, slice);
      && r.status == s.status && r.webSocket == s.webSocket && r.ws == s.ws
      && r.retry == s.retry && r.canceled == s.canceled
      && r.sockets.next == s.sockets.next && r.sockets.closed == s.sockets.closed
  {
  }
}

=== FILE: wrappers.dfy ===
/** The optional value used wherever the TypeScript code has `T | undefined`. */
module Wrappers {

  datatype Option<+T> = None | Some(value: T)

}

=== FILE: ws_types.dfy ===
/**
 The message vocabulary shared by the bridge and its display client: eighteen
 tagged kinds, the payload record each kind carries, and the body that pairs a
 tag with a payload of exactly that kind's shape.
 */
module WsTypes {

  import opened Wrappers

  /** A byte of a wire frame. */
  newtype byte = x: int | 0 <= x < 256

  type Bytes = seq<byte>

  /** The closed set of message tags. */
  datatype Kind =
    | Ping
    | Pong
    | SetMusicInfo
    | SetMusicAlbumCoverImageUri
    | SetMusicAlbumCoverImageData
    | OnPlayProgress
    | OnVolumeChanged
    | OnPaused
    | OnResumed
    | OnAudioData
    | SetLyric
    | SetLyricFromTtml
    | Pause
    | Resume
    | ForwardSong
    | BackwardSong
    | SetVolume
    | SeekPlayProgress

  datatype Artist = Artist(id: string, name: string)

  /** A word of a lyric line; times are whole milliseconds. */
  datatype LyricWord = LyricWord(startTime: int, endTime: int, word: string)

  datatype LyricLine = LyricLine(
    startTime: int,
    endTime: int,
    words: seq<LyricWord>,
    isBG: bool,
    isDuet: bool,
    translatedLyric: string,
    romanLyric: string)

  datatype MusicInfo = MusicInfo(
    musicId: string,
    musicName: string,
    albumId: string,
    albumName: string,
    artists: seq<Artist>,
    duration: real)

  /**
   The payload records. `NoValue` is the absent (`undefined`) payload, which is
   distinct from every record, including an empty one.
   */
  datatype Payload =
    | NoValue
    | MusicInfoValue(info: MusicInfo)
    | ImageUriValue(imgUrl: string)
    | ByteDataValue(data: seq<int>)
    | ProgressValue(progress: real)
    | VolumeValue(volume: real)
    | LyricValue(lines: seq<LyricLine>)
    | TextValue(text: string)

  /** The shape of a payload: which record it is, ignoring its contents. */
  datatype Shape = NoShape | MusicInfoShape | ImageUriShape | ByteDataShape
                 | ProgressShape | VolumeShape | LyricShape | TextShape

  function ShapeOf(p: Payload): Shape
  {
    match p
    case NoValue => NoShape
    case MusicInfoValue(_) => MusicInfoShape
    case ImageUriValue(_) => ImageUriShape
    case ByteDataValue(_) => ByteDataShape
    case ProgressValue(_) => ProgressShape
    case VolumeValue(_) => VolumeShape
    case LyricValue(_) => LyricShape
    case TextValue(_) => TextShape
  }

  /** The payload shape each kind carries. */
  function KindShape(k: Kind): Shape
  {
    match k
    case Ping | Pong | OnPaused | OnResumed => NoShape
    case Pause | Resume | ForwardSong | BackwardSong => NoShape
    case SetMusicInfo => MusicInfoShape
    case SetMusicAlbumCoverImageUri => ImageUriShape
    case SetMusicAlbumCoverImageData | OnAudioData => ByteDataShape
    case OnPlayProgress | SeekPlayProgress => ProgressShape
    case OnVolumeChanged | SetVolume => VolumeShape
    case SetLyric => LyricShape
    case SetLyricFromTtml => TextShape
  }

  /** A tag paired with a value, before the pairing is checked. */
  datatype Body = Body(kind: Kind, value: Payload)

  predicate WellTyped(b: Body)
  {
    ShapeOf(b.value) == KindShape(b.kind)
  }

  /** A message: a body whose payload is of its tag's shape. */
  type Message = b: Body | WellTyped(b) witness Body(Ping, NoValue)

  /** Every kind, as a set. */
  function AllKinds(): (r: set<Kind>)
    ensures |r| == 18
  {
    { Ping, Pong, SetMusicInfo, SetMusicAlbumCoverImageUri, SetMusicAlbumCoverImageData,
      OnPlayProgress, OnVolumeChanged, OnPaused, OnResumed, OnAudioData, SetLyric,
      SetLyricFromTtml, Pause, Resume, ForwardSong, BackwardSong, SetVolume, SeekPlayProgress }
  }

  /** The kind set is closed: every tag is one of the eighteen listed. */
  lemma EveryKindListed(k: Kind)
    ensures k in AllKinds()
  {
  }

  /** The kinds whose payload is absent. */
  function NoPayloadKinds(): (r: set<Kind>)
    ensures forall k: Kind :: k in r <==> KindShape(k) == NoShape
    ensures |r| == 8
  {
    { Ping, Pong, OnPaused, OnResumed, Pause, Resume, ForwardSong, BackwardSong }
  }

  /** Pairs a tag with a payload, refusing a payload of another kind's shape. */
  function MakeMessage(k: Kind, p: Payload): (r: Option<Message>)
    ensures r.Some? <==> ShapeOf(p) == KindShape(k)
    ensures r.Some? ==> r.value.kind == k && r.value.value == p
  {
    if ShapeOf(p) == KindShape(k) then Some(Body(k, p)) else None
  }

  /** A payload-less message of a given kind. */
  function Bare(k: Kind): (m: Message)
    requires KindShape(k) == NoShape
    ensures m.kind == k && m.value.NoValue?
  {
    Body(k, NoValue)
  }

  /** Taking a message apart and pairing its parts again gives it back. */
  lemma MakeMessageOfParts(m: Message)
    ensures MakeMessage(m.kind, m.value) == Some(m)
  {
  }

  /** A payload-less kind admits exactly one message: the one with the absent payload. */
  lemma NoPayloadKindHasAbsentValue(m: Message)
    requires m.kind in NoPayloadKinds()
    ensures m.value == NoValue
    ensures m == Bare(m.kind)
  {
  }

  /**
   Two different kinds carry the same payload record exactly when both are
   payload-less, or they are one of the three pairs that share a record:
   the volume pair, the progress pair and the byte-data pair.
   */
  lemma SharedShapes(k1: Kind, k2: Kind)
    requires k1 != k2
    ensures KindShape(k1) == KindShape(k2) <==>
      || (k1 in NoPayloadKinds() && k2 in NoPayloadKinds())
      || {k1, k2} == {SetVolume, OnVolumeChanged}
      || {k1, k2} == {OnPlayProgress, SeekPlayProgress}
      || {k1, k2} == {SetMusicAlbumCoverImageData, OnAudioData}
  {
  }
}
